=== FILE: README.md ===
# Audio manager core, modelled in Dafny

This project models the Kotlin core of the Android audio-manager module: the
parts of the recorder, the recorder service client, the player and the
waveform visualizer that hold logic of their own rather than forwarding to
Android media APIs.

- `maths.dfy`: the Kotlin arithmetic the core relies on.
  - `Int` division and remainder truncate toward zero (`Maths.Div`, `Maths.Rem`).
  - `Float.toInt()` rounds toward zero (`Maths.Truncate`).
  - `min`, `max` and `abs`.
  - `Library` bundles `log10`, `sqrt` and `sin` as function values. `Lawful` lists the only facts about them the proofs use: `|sin| ≤ 1`; on non-negative numbers `sqrt` is non-negative, zero only at zero and one-to-one; `log10` is 0 at one and positive above one. It also holds `Option` and `Result`.
- `amplitude.dfy` (`Amplitude`): the 200-slot decibel ring buffer of
  `AudioRecorder`, the sampling step, the mean, the reduce-based
  "standard deviation" and the capped standard score (`normalizedAmplitude`).
- `recorder.dfy` (`Recorder`): the recording state machine of
  `AudioRecorder`.
  - The `isRecording` guards, `onError` and `onInfo`.
  - The sampling timer. Timers are identified, so "at most one timer is scheduled" is a provable invariant.
  - The file name reported on stop.
- `visualizer.dfy` (`Visualizer`): the bar geometry of `AudioVisualizerDrawer`.
  - The ratios, the bar count and the scrolling offset.
  - The rectified-sine bar height.
  - The segments `draw` emits.
- `client.dfy` (`RecorderClient`): the two-field lifecycle of
  `AudioRecorderClient` (parked record parameters, bound service).
- `player.dfy` (`Player`): the pause/resume/stop state machine of
  `AudioPlayer`, its audio-focus reactions and its getters.

State is immutable. Every operation is a pure function from a state and its
inputs to a new state and the callbacks it fires (`Step`). Values the operating
system supplies are parameters:
- whether audio focus and the microphone permission are granted;
- whether the media recorder starts or throws;
- the recording file's path;
- `MediaPlayer.isPlaying`, the playback position and the duration;
- the recorder's maximum amplitude;
- the binder handed to `onServiceConnected`.

Float arithmetic is exact `real` arithmetic.

The "standard deviation" is reproduced as written (AudioRecorder.kt:279-286).
Kotlin's `reduce` starts its accumulator at slot 0's raw value, not at slot 0's
squared deviation. So the radicand is the population sum of squares minus
`(h[0] − mean)²` plus `h[0]` (`Amplitude.StandardDeviation`,
`Amplitude.ReduceSeedsWithFirstSlot`). Two consequences are proved for a steady
input above 0 dB:
- it scores exactly 0 (`Amplitude.SteadyInputScoresZero`);
- its population deviation is 0 and its last reading equals the mean, so a score
  against the population deviation would be 0 / 0, which is not a number
  (`Amplitude.SteadyInputHasNoPopulationDeviation`).

Points where the code behaves in a way that is easy to misread:
- `normalizedAmplitude` divides by `amplitudeHistoryStandardDeviation()`
  (AudioRecorder.kt:36-39), which is the reduce-seeded root above, not a
  population standard deviation.
- Kotlin's `max(NaN, 0.1f)` is NaN (AudioVisualizerDrawer.kt:107), so a NaN
  reading reaches the bar height unclamped. The model has no NaN reading (see
  below).
- `numberOfBarsFor` truncates the bar step to an `Int` and then divides the
  width by it in `Int` arithmetic (AudioVisualizerDrawer.kt:85-90,
  `Visualizer.NumberOfBars`).
- `onServiceDisconnected` clears the service and the parked parameters only
  when a service was bound (AudioRecorderClient.kt:116-120). With no service
  bound, parked parameters survive (`RecorderClient.OnServiceDisconnected`).

## Model

| member | source | states |
|---|---|---|
| Amplitude.Sample | ReproducerApp/audio-manager/android/src/main/java/com/evernote/neutron/audiomanager/AudioRecorder.kt:263-277 | A zero amplitude changes nothing. Any other amplitude writes its dB value into slot `count % 200`, makes it the last reading and adds exactly one to the count; the other 199 slots keep their values and the buffer stays 200 long |
| Amplitude.Decibels | ReproducerApp/audio-manager/android/src/main/java/com/evernote/neutron/audiomanager/AudioRecorder.kt:275-277 | An amplitude of one is 0 dB and any larger amplitude is positive |
| Amplitude.FeedMatchesLatest | ReproducerApp/audio-manager/android/src/main/java/com/evernote/neutron/audiomanager/AudioRecorder.kt:263-273 | After any sequence of amplitudes, the count grows by the number of non-zero ones and the last reading is the last non-zero one's dB. Each slot holds the latest reading whose count was that slot modulo 200, or its old value if none was |
| Amplitude.Readings | ReproducerApp/audio-manager/android/src/main/java/com/evernote/neutron/audiomanager/AudioRecorder.kt:264-268 | The number of readings is the number of amplitudes minus the number of zeros, for any mix. A non-zero last amplitude gives the last reading. Non-negative amplitudes give non-negative readings |
| Amplitude.LatestCovers | ReproducerApp/audio-manager/android/src/main/java/com/evernote/neutron/audiomanager/AudioRecorder.kt:267-268 | Once 200 readings have been written in a row, every slot has been overwritten |
| Amplitude.ReduceSeedsWithFirstSlot | ReproducerApp/audio-manager/android/src/main/java/com/evernote/neutron/audiomanager/AudioRecorder.kt:281-283 | The `reduce` sum equals the population sum of squared deviations, with slot 0's squared deviation replaced by slot 0's raw value |
| Amplitude.StandardDeviation | ReproducerApp/audio-manager/android/src/main/java/com/evernote/neutron/audiomanager/AudioRecorder.kt:279-286 | The result is `sqrt` of (population sum of squared deviations − `(h[0] − mean)²` + `h[0]`) over the slot count. It is non-negative when `h[0]` is |
| Amplitude.DeviationAsWritten | ReproducerApp/audio-manager/android/src/main/java/com/evernote/neutron/audiomanager/AudioRecorder.kt:279-286 | The reported deviation equals the population deviation if `h[0] = (h[0] − mean)²`. For a non-negative `h[0]`, and given that `sqrt` tells non-negative numbers apart, only then |
| Amplitude.FeedKeepsNonNegative | ReproducerApp/audio-manager/android/src/main/java/com/evernote/neutron/audiomanager/AudioRecorder.kt:263-277 | Non-negative raw amplitudes never put a negative reading into a non-negative history |
| Amplitude.RecordedDeviationAgreesExactlyWhen | ReproducerApp/audio-manager/android/src/main/java/com/evernote/neutron/audiomanager/AudioRecorder.kt:263-286 | For every history a fresh recorder reaches from non-negative amplitudes, the reported deviation is the population deviation if and only if `h[0] = (h[0] − mean)²` |
| Amplitude.NormalizedAmplitude | ReproducerApp/audio-manager/android/src/main/java/com/evernote/neutron/audiomanager/AudioRecorder.kt:33-41 | Any score is at most 1. With a non-zero deviation, the score is 1 exactly when the standard score reaches 1 and is the standard score otherwise. With a zero deviation there is a score exactly when the last reading is above the mean, and it is then 1 |
| Amplitude.SteadyInputScoresZero | ReproducerApp/audio-manager/android/src/main/java/com/evernote/neutron/audiomanager/AudioRecorder.kt:33-41 | From any state, at least 200 equal amplitudes above 1 leave a normalized amplitude of exactly 0 |
| Amplitude.SteadyInputFillsRing | ReproducerApp/audio-manager/android/src/main/java/com/evernote/neutron/audiomanager/AudioRecorder.kt:263-273 | At least 200 equal non-zero amplitudes leave every slot and the last reading at their dB value |
| Amplitude.SteadyInputHasNoPopulationDeviation | ReproducerApp/audio-manager/android/src/main/java/com/evernote/neutron/audiomanager/AudioRecorder.kt:33-41 | After at least 200 equal non-zero amplitudes the population deviation is 0 and the last reading equals the mean |
| Amplitude.SilenceHasNoScore | ReproducerApp/audio-manager/android/src/main/java/com/evernote/neutron/audiomanager/AudioRecorder.kt:264-266 | A fresh recorder fed only zero amplitudes has no finite normalized amplitude |
| Amplitude.SilenceChangesNothing | ReproducerApp/audio-manager/android/src/main/java/com/evernote/neutron/audiomanager/AudioRecorder.kt:264-266 | Any tracker fed only zero amplitudes is left exactly as it was |
| Recorder.StopSampling | ReproducerApp/audio-manager/android/src/main/java/com/evernote/neutron/audiomanager/AudioRecorder.kt:256-261 | Afterwards no timer is scheduled. With no timer it changes nothing |
| Recorder.StartSampling | ReproducerApp/audio-manager/android/src/main/java/com/evernote/neutron/audiomanager/AudioRecorder.kt:246-254 | Afterwards exactly one timer is scheduled, and it is a new one: any earlier timer was cancelled |
| Recorder.FileName | ReproducerApp/audio-manager/android/src/main/java/com/evernote/neutron/audiomanager/AudioRecorder.kt:147-149 | The name is a suffix of the path without '/', preceded in the path by '/' unless it is the whole path |
| Recorder.LastIndexOf | ReproducerApp/audio-manager/android/src/main/java/com/evernote/neutron/audiomanager/AudioRecorder.kt:148 | The result is -1 or a position holding the character, and no later position holds it |
| Recorder.Record | ReproducerApp/audio-manager/android/src/main/java/com/evernote/neutron/audiomanager/AudioRecorder.kt:58-128 | Without focus nothing changes. On a successful start the recorder records the new file under the new identifier, with exactly one timer, and fires DidStart. Without permission or on a failed start it is not recording, keeps the previous identifier and timer, and fires an error carrying the previous identifier. A denied permission keeps the media recorder only if it was not recording; past the permission check a new media recorder exists even if it fails. A failure after the output file was chosen records the new path; a denied permission or an earlier failure keeps the old one. The invariant is kept |
| Recorder.StopRecording | ReproducerApp/audio-manager/android/src/main/java/com/evernote/neutron/audiomanager/AudioRecorder.kt:130-159 | When not recording it changes nothing. Otherwise recording ends, no timer is left, the file is forgotten, the media recorder reference stays, and DidStop reports identifier, path, `audio/aac` and the file name |
| Recorder.CancelRecording | ReproducerApp/audio-manager/android/src/main/java/com/evernote/neutron/audiomanager/AudioRecorder.kt:161-176 | When not recording it changes nothing. Otherwise recording ends, no timer is left and the output file is deleted, while its path is kept |
| Recorder.OnError | ReproducerApp/audio-manager/android/src/main/java/com/evernote/neutron/audiomanager/AudioRecorder.kt:182-191 | Sampling stops, the file is forgotten, recording ends, the identifier and media recorder are kept, and the error fires with the identifier, `what` and `extra` |
| Recorder.OnInfo | ReproducerApp/audio-manager/android/src/main/java/com/evernote/neutron/audiomanager/AudioRecorder.kt:193-199 | The state is unchanged and the info callback fires with the identifier, `what` and `extra` |
| Recorder.SampleAmplitude | ReproducerApp/audio-manager/android/src/main/java/com/evernote/neutron/audiomanager/AudioRecorder.kt:263-265 | Without a media recorder a tick changes nothing; with one it samples its maximum amplitude |
| Recorder.Apply | ReproducerApp/audio-manager/android/src/main/java/com/evernote/neutron/audiomanager/AudioRecorder.kt:246-254 | A tick samples the amplitude exactly when the timer it comes from is still scheduled; a tick from a cancelled timer changes nothing |
| Recorder.Run | ReproducerApp/audio-manager/android/src/main/java/com/evernote/neutron/audiomanager/AudioRecorder.kt:246-261 | After any sequence of calls, callbacks and ticks the invariant holds and at most one sampling timer is scheduled |
| Recorder.RecordThenStop | ReproducerApp/audio-manager/android/src/main/java/com/evernote/neutron/audiomanager/AudioRecorder.kt:96-157 | A started-then-stopped recording reports the identifier and path it was started with and leaves no timer |
| Recorder.DeniedRestartKeepsTimer | ReproducerApp/audio-manager/android/src/main/java/com/evernote/neutron/audiomanager/AudioRecorder.kt:71-176 | Restarting a recording without permission drops the media recorder but leaves the old sampling timer scheduled. Stop and cancel then return early and keep it; an error callback cancels it |
| Recorder.FailedRestartSamplesNewRecorder | ReproducerApp/audio-manager/android/src/main/java/com/evernote/neutron/audiomanager/AudioRecorder.kt:71-128 | A restart of a running recording that passes the permission check but fails to start leaves the old timer scheduled, and its next tick samples the new media recorder |
| Recorder.NoTimerAfterEnd | ReproducerApp/audio-manager/android/src/main/java/com/evernote/neutron/audiomanager/AudioRecorder.kt:134-185 | A stop or cancel while recording, and any error callback, leave no sampling timer, whatever came before |
| Recorder.NoSamplingAfterStop | ReproducerApp/audio-manager/android/src/main/java/com/evernote/neutron/audiomanager/AudioRecorder.kt:130-176 | After a stop or cancel of a recording, no tick, from any timer, changes the amplitude history |
| Visualizer.StepIsFifthOfHeight | ReproducerApp/audio-manager/android/src/main/java/com/evernote/neutron/audiomanager/AudioVisualizerDrawer.kt:25-46 | The gap is three bar widths, so a bar step is four bar widths, a fifth of the canvas height |
| Visualizer.StepPixelsIsHeightOverFive | ReproducerApp/audio-manager/android/src/main/java/com/evernote/neutron/audiomanager/AudioVisualizerDrawer.kt:86-87 | For a non-negative height the truncated step is `height / 5` |
| Visualizer.NumberOfBars | ReproducerApp/audio-manager/android/src/main/java/com/evernote/neutron/audiomanager/AudioVisualizerDrawer.kt:85-90 | A non-positive step gives 0 bars. For a non-negative width, n is the largest count with `n·step ≤ width`. A negative width gives no bars, and bars imply a positive width |
| Visualizer.XFor | ReproducerApp/audio-manager/android/src/main/java/com/evernote/neutron/audiomanager/AudioVisualizerDrawer.kt:92-101 | 0 on a canvas of non-positive width or when a loop takes no frames. Otherwise the slot position minus the per-frame displacement times the frames elapsed in the loop |
| Visualizer.XWithinOneStep | ReproducerApp/audio-manager/android/src/main/java/com/evernote/neutron/audiomanager/AudioVisualizerDrawer.kt:92-98 | On a canvas of positive width, with positive fps, frameCount ≥ 0 and a loop of at least one frame, bar i lies in `(i·step − step, i·step]` |
| Visualizer.XIsPeriodic | ReproducerApp/audio-manager/android/src/main/java/com/evernote/neutron/audiomanager/AudioVisualizerDrawer.kt:95-98 | Advancing frameCount by framesPerLoop leaves every bar's position unchanged |
| Visualizer.EffectiveAmplitude | ReproducerApp/audio-manager/android/src/main/java/com/evernote/neutron/audiomanager/AudioVisualizerDrawer.kt:107 | The amplitude used is at least 0.1, at least the reading, and one of the two |
| Visualizer.WaveForm | ReproducerApp/audio-manager/android/src/main/java/com/evernote/neutron/audiomanager/AudioVisualizerDrawer.kt:104-111 | Given `|sin| ≤ 1` and a non-negative height, a bar's height lies in `[0, (maxRatio − minRatio)·height·max(norm, 0.1)]` |
| Visualizer.Draw | ReproducerApp/audio-manager/android/src/main/java/com/evernote/neutron/audiomanager/AudioVisualizerDrawer.kt:72-83 | One segment per bar, none for a non-positive count. Segment i is vertical at `xFor(i)`, symmetric about `height / 2` and as long as the waveform height there |
| RecorderClient.Record | ReproducerApp/audio-manager/android/src/main/java/com/evernote/neutron/audiomanager/AudioRecorderClient.kt:37-62 | From idle (no parameters, no service) the parameters are parked and the service started and bound. Otherwise only an error is logged |
| RecorderClient.StopAudioRecorderService | ReproducerApp/audio-manager/android/src/main/java/com/evernote/neutron/audiomanager/AudioRecorderClient.kt:76-90 | With a service: the stop is forwarded, the service unbound and stopped, and the client idle. Without one, only an error is logged |
| RecorderClient.StopRecording | ReproducerApp/audio-manager/android/src/main/java/com/evernote/neutron/audiomanager/AudioRecorderClient.kt:64-74 | Without a service only an error is logged. With one the stop is forwarded and the client becomes idle |
| RecorderClient.CancelRecording | ReproducerApp/audio-manager/android/src/main/java/com/evernote/neutron/audiomanager/AudioRecorderClient.kt:92-105 | With a service the cancel is forwarded, the service is unbound and stopped if parameters were parked, and the client becomes idle. Without one only an error is logged |
| RecorderClient.OnServiceDisconnected | ReproducerApp/audio-manager/android/src/main/java/com/evernote/neutron/audiomanager/AudioRecorderClient.kt:111-121 | No service remains. Parked parameters are cleared only if a service was bound |
| RecorderClient.OnServiceConnected | ReproducerApp/audio-manager/android/src/main/java/com/evernote/neutron/audiomanager/AudioRecorderClient.kt:123-136 | The binder's service (possibly none) is recorded. Parked parameters are forwarded to it unchanged and stay parked |
| RecorderClient.NormalizedAmplitude | ReproducerApp/audio-manager/android/src/main/java/com/evernote/neutron/audiomanager/AudioRecorderClient.kt:29-30 | 0 without a service, the service's reading with one |
| RecorderClient.SessionReturnsToIdle | ReproducerApp/audio-manager/android/src/main/java/com/evernote/neutron/audiomanager/AudioRecorderClient.kt:44-90 | Record, connect, stop from idle forwards exactly one record and one stop to the service and ends idle |
| RecorderClient.SecondRecordRefused | ReproducerApp/audio-manager/android/src/main/java/com/evernote/neutron/audiomanager/AudioRecorderClient.kt:37-53 | From any client, a second record right after a first one leaves the client as the first left it |
| RecorderClient.UnboundParamsAreStuck | ReproducerApp/audio-manager/android/src/main/java/com/evernote/neutron/audiomanager/AudioRecorderClient.kt:44-125 | If the binder is not the service's, the parked parameters can be cleared by neither record, stop, cancel nor disconnect |
| RecorderClient.CancelledSessionReturnsToIdle | ReproducerApp/audio-manager/android/src/main/java/com/evernote/neutron/audiomanager/AudioRecorderClient.kt:44-105 | Record, connect, cancel from idle ends idle after the service cancelled and was unbound and stopped |
| RecorderClient.EndingsFreeTheClient | ReproducerApp/audio-manager/android/src/main/java/com/evernote/neutron/audiomanager/AudioRecorderClient.kt:37-121 | From any client with a bound service, stop, cancel and disconnect each end idle, and the next record is accepted |
| RecorderClient.AmplitudeFollowsBinding | ReproducerApp/audio-manager/android/src/main/java/com/evernote/neutron/audiomanager/AudioRecorderClient.kt:29-136 | Record leaves the reported amplitude as it was. A connection makes it the service's reading, a foreign binder makes it 0, and stop, cancel and disconnect make it 0 |
| Player.Play | ReproducerApp/audio-manager/android/src/main/java/com/evernote/neutron/audiomanager/AudioPlayer.kt:25-48 | Without focus nothing changes. With focus a new media player for the path replaces the old one and the paused flag is kept. DidRestart fires exactly when a playing media player existed |
| Player.Pause | ReproducerApp/audio-manager/android/src/main/java/com/evernote/neutron/audiomanager/AudioPlayer.kt:58-64 | Always paused afterwards; DidPause only with a media player |
| Player.Resume | ReproducerApp/audio-manager/android/src/main/java/com/evernote/neutron/audiomanager/AudioPlayer.kt:66-77 | Without focus nothing changes. Otherwise unpaused, with DidResume only if a media player exists |
| Player.TogglePlayPause | ReproducerApp/audio-manager/android/src/main/java/com/evernote/neutron/audiomanager/AudioPlayer.kt:50-56 | Resume when paused, pause otherwise |
| Player.Stop | ReproducerApp/audio-manager/android/src/main/java/com/evernote/neutron/audiomanager/AudioPlayer.kt:79-87 | Without a media player nothing changes. Otherwise the media player is gone, the player is unpaused and DidStop fires once |
| Player.Release | ReproducerApp/audio-manager/android/src/main/java/com/evernote/neutron/audiomanager/AudioPlayer.kt:122-125 | The media player is gone and the paused flag is unchanged; nothing fires |
| Player.OnPrepared | ReproducerApp/audio-manager/android/src/main/java/com/evernote/neutron/audiomanager/AudioPlayer.kt:127-133 | With a media player: unpaused and DidStart. Without one: nothing |
| Player.OnCompletion | ReproducerApp/audio-manager/android/src/main/java/com/evernote/neutron/audiomanager/AudioPlayer.kt:135-138 | Unpaused, media player kept, DidFinish |
| Player.OnError | ReproducerApp/audio-manager/android/src/main/java/com/evernote/neutron/audiomanager/AudioPlayer.kt:140-143 | State unchanged, DidErrorOccur, error reported handled |
| Player.OnAudioFocusChange | ReproducerApp/audio-manager/android/src/main/java/com/evernote/neutron/audiomanager/AudioPlayer.kt:145-169 | LOSS and LOSS_TRANSIENT pause. GAIN resumes only a paused player. CAN_DUCK and other values change nothing |
| Player.SeekTarget | ReproducerApp/audio-manager/android/src/main/java/com/evernote/neutron/audiomanager/AudioPlayer.kt:89-95 | A seek happens exactly when a media player exists, to `(duration · point)` rounded toward zero. For a point in [0, 1] and a non-negative duration the target lies within the duration |
| Player.GetPlaybackInfo | ReproducerApp/audio-manager/android/src/main/java/com/evernote/neutron/audiomanager/AudioPlayer.kt:97-108 | "Player is not available." exactly when there is no media player. Otherwise the position in seconds and, for a non-zero duration, the fraction played |
| Player.GetPlaybackDuration | ReproducerApp/audio-manager/android/src/main/java/com/evernote/neutron/audiomanager/AudioPlayer.kt:110-120 | "Player is not available." exactly when there is no media player, otherwise the duration in seconds |
| Player.ToggleTwiceRestores | ReproducerApp/audio-manager/android/src/main/java/com/evernote/neutron/audiomanager/AudioPlayer.kt:50-77 | With focus, toggling twice restores the state and fires a pause and a resume (in flag order) when a media player exists |
| Player.FocusLossThenGainResumes | ReproducerApp/audio-manager/android/src/main/java/com/evernote/neutron/audiomanager/AudioPlayer.kt:145-169 | A transient loss followed by a granted gain ends unpaused with the same media player, after DidPause then DidResume |
| Player.StopIsIdempotent | ReproducerApp/audio-manager/android/src/main/java/com/evernote/neutron/audiomanager/AudioPlayer.kt:79-87 | A second stop changes nothing and fires nothing |
| Player.GettersAfterTeardown | ReproducerApp/audio-manager/android/src/main/java/com/evernote/neutron/audiomanager/AudioPlayer.kt:97-125 | After release or stop both getters report the player unavailable |
| Player.PlayThenPreparedStarts | ReproducerApp/audio-manager/android/src/main/java/com/evernote/neutron/audiomanager/AudioPlayer.kt:25-48 | With focus, play then prepared ends unpaused on the new file, after DidRestart (exactly when a media player was playing) and then DidStart |
| Player.CompletionThenTogglePauses | ReproducerApp/audio-manager/android/src/main/java/com/evernote/neutron/audiomanager/AudioPlayer.kt:50-64 | After a file finishes, the next toggle pauses, announcing DidPause when a media player exists |
| Player.ErrorKeepsPlayer | ReproducerApp/audio-manager/android/src/main/java/com/evernote/neutron/audiomanager/AudioPlayer.kt:140-143 | After an error both getters answer as before, and a stop does what it would have done |

## Left out

- Android media APIs: MediaRecorder and MediaPlayer configuration, `prepare`/`start`/`stop`, and the focus and permission requests. Focus and permission are boolean inputs, the recorder's start is an enumerated outcome (`StartOutcome`), and the media players are present or absent.
- Exceptions from the other media calls: `MediaRecorder.stop()` (AudioRecorder.kt:141, 169) and `MediaPlayer.setDataSource`/`stop` (AudioPlayer.kt:42, 81) are assumed to succeed. If `stop()` threw at line 141, `isRecording` would stay true with sampling stopped and no DidStop, a state `Recorder.StopRecording` does not produce.
- Timers and threading: the sampling timer's schedule, the visualizer's frame timer and UI-thread posting are not modelled. A timer tick is a `SamplingTick` command naming its timer, and only a scheduled timer's tick samples; cross-thread access to the history is out of scope.
- IEEE-754 behaviour: NaN, infinities and rounding are not modelled; arithmetic is exact over `real`. In particular Kotlin's `max(NaN, 0.1f)` is NaN, so the drawer does not clamp a NaN reading. The model has no NaN reading to clamp.
- Amplitude.NormalizedAmplitude: a zero deviation with the last reading not above the mean gives `None`. This stands for the float results −∞ and NaN, which are not told apart.
- Visualizer.WaveForm: requires a non-zero width and frame rate, where the float quotients would be infinite. The only caller draws bars only at positive width and always uses 30 fps.
- Amplitude.Sample: the sample count is unbounded. Kotlin's `Int` count would wrap after 2^31 − 1 non-zero samples, making the slot index negative.
- Visualizer.XFor: `Float.toInt()` saturation at the `Int` range and frame-counter overflow are not modelled. The bounds and periodicity lemmas take `frameCount ≥ 0`.
- Callback registration: every event is emitted as if its callback were set, as the bridge module sets all of them.
- Callback payloads: only their fields are kept, not `WritableMap` objects.
- `AudioRecorder.onAudioFocusChange`: every branch is empty, so it is not modelled.
- `getSessionID`: both versions only query the OS, so they are not modelled.
- `AudioRecorderClient.setLocalizedTexts`: it only stores notification texts for the service intent, so it is not modelled.
- `newRecordingFile` and `getVoiceCachePath`: the date-formatted file name and the cache directory are an input path.
- The record parameters' React context and callbacks are opaque and not modelled; only the identifier is kept.
- The service and bridge glue is not part of this model: `AudioRecorderService.kt`, `AudioManagerModule.kt`, `AudioManagerPackage.kt`, `AudioRecorderFacade.kt` and `AudioRecorderInterface.kt`. The iOS stubs and `index.ts` are left out too.

=== FILE: amplitude.dfy ===
/** The amplitude history of `AudioRecorder`: a ring of 200 decibel readings,
    the sampling step that writes into it, and the standard score that turns
    the latest reading into the visualizer's normalized amplitude. */
module Amplitude {
  import opened Optional
  import opened Maths

  /** Number of readings kept (`amplitudeHistorySize`). */
  const Capacity: nat := 200

  /** `amplitudeHistory`, `amplitudeSampleCount` and `lastAmplitude`. */
  datatype Tracker = Tracker(history: seq<real>, sampleCount: nat, lastAmplitude: real)

  /** The history is a fixed array of `Capacity` slots. */
  predicate Valid(t: Tracker) {
    |t.history| == Capacity
  }

  /** A fresh recorder: a zero-filled history, no samples, last reading 0. */
  function Initial(): (t: Tracker)
    ensures Valid(t)
  {
    Tracker(seq(Capacity, _ => 0.0), 0, 0.0)
  }

  /** `dBFromAmplitude`: 20 log10 of the raw amplitude, relative to an
      amplitude of one, so 0 dB there and positive above it. */
  function Decibels(lib: Library, amplitude: int): (db: real)
    ensures Lawful(lib) && amplitude == 1 ==> db == 0.0
    ensures Lawful(lib) && amplitude > 1 ==> db > 0.0
  {
    20.0 * lib.log10(amplitude as real)
  }

  /** `sampleAmplitude` once the media recorder has reported `amplitude`:
      silence is dropped, anything else is written at slot
      `sampleCount % Capacity` and becomes the last reading. */
  function Sample(lib: Library, t: Tracker, amplitude: int): (r: Tracker)
    requires Valid(t)
    ensures Valid(r)
    ensures amplitude == 0 ==> r == t
    ensures amplitude != 0 ==>
              && r.history[t.sampleCount % Capacity] == Decibels(lib, amplitude)
              && r.lastAmplitude == Decibels(lib, amplitude)
              && r.sampleCount == t.sampleCount + 1
    ensures forall j :: 0 <= j < Capacity && j != t.sampleCount % Capacity ==> r.history[j] == t.history[j]
  {
    if amplitude == 0 then t
    else
      var db := Decibels(lib, amplitude);
      Tracker(t.history[t.sampleCount % Capacity := db], t.sampleCount + 1, db)
  }

  /** The tracker after the sampling timer has delivered `amplitudes` in order. */
  function Feed(lib: Library, t: Tracker, amplitudes: seq<int>): (r: Tracker)
    requires Valid(t)
    ensures Valid(r)
    decreases |amplitudes|
  {
    if |amplitudes| == 0 then t
    else Sample(lib, Feed(lib, t, amplitudes[..|amplitudes| - 1]), amplitudes[|amplitudes| - 1])
  }

  /** The decibel readings that `amplitudes` contribute: one per non-zero
      amplitude, in order. */
  function Readings(lib: Library, amplitudes: seq<int>): (dbs: seq<real>)
    ensures |dbs| + multiset(amplitudes)[0] == |amplitudes|
    ensures |amplitudes| > 0 && amplitudes[|amplitudes| - 1] != 0 ==>
              |dbs| > 0 && dbs[|dbs| - 1] == Decibels(lib, amplitudes[|amplitudes| - 1])
    ensures Lawful(lib) && (forall k :: 0 <= k < |amplitudes| ==> amplitudes[k] >= 0) ==>
              forall i :: 0 <= i < |dbs| ==> dbs[i] >= 0.0
  {
    if |amplitudes| == 0 then []
    else
      var earlier := Readings(lib, amplitudes[..|amplitudes| - 1]);
      var a := amplitudes[|amplitudes| - 1];
      assert multiset(amplitudes) == multiset(amplitudes[..|amplitudes| - 1]) + multiset{a} by {
        assert amplitudes == amplitudes[..|amplitudes| - 1] + [a];
      }
      if a == 0 then earlier else earlier + [Decibels(lib, a)]
  }

  /** Reference semantics of the ring: when `dbs` are written one after the
      other starting at sample count `start`, slot `j` holds the last of them
      whose count is `j` modulo `Capacity`, or nothing was written there. */
  function Latest(dbs: seq<real>, start: nat, j: nat): Option<real> {
    if |dbs| == 0 then None
    else if (start + |dbs| - 1) % Capacity == j then Some(dbs[|dbs| - 1])
    else Latest(dbs[..|dbs| - 1], start, j)
  }

  /** Feeding the tracker agrees with the reference semantics: every non-zero
      amplitude is counted, the last one is the last reading, and each slot
      holds the latest reading written to it or else its old content. */
  lemma {:induction false} FeedMatchesLatest(lib: Library, t: Tracker, amplitudes: seq<int>)
    requires Valid(t)
    ensures Feed(lib, t, amplitudes).sampleCount == t.sampleCount + |Readings(lib, amplitudes)|
    ensures Feed(lib, t, amplitudes).lastAmplitude ==
              if |Readings(lib, amplitudes)| == 0 then t.lastAmplitude
              else Readings(lib, amplitudes)[|Readings(lib, amplitudes)| - 1]
    ensures forall j :: 0 <= j < Capacity ==>
              Feed(lib, t, amplitudes).history[j] == Elvis(Latest(Readings(lib, amplitudes), t.sampleCount, j), t.history[j])
    decreases |amplitudes|
  {
    if |amplitudes| > 0 {
      var earlier := amplitudes[..|amplitudes| - 1];
      var a := amplitudes[|amplitudes| - 1];
      FeedMatchesLatest(lib, t, earlier);
      if a != 0 {
        var before := Readings(lib, earlier);
        var dbs := Readings(lib, amplitudes);
        var prior := Feed(lib, t, earlier);
        assert Feed(lib, t, amplitudes) == Sample(lib, prior, a);
        assert dbs == before + [Decibels(lib, a)];
        assert dbs[..|dbs| - 1] == before;
        forall j | 0 <= j < Capacity
          ensures Feed(lib, t, amplitudes).history[j] == Elvis(Latest(dbs, t.sampleCount, j), t.history[j])
        {
          LatestAfterWrite(before, t.sampleCount, j, Decibels(lib, a));
        }
      }
    }
  }

  /** One more write changes only the slot it lands in. */
  lemma LatestAfterWrite(before: seq<real>, start: nat, j: nat, db: real)
    ensures Latest(before + [db], start, j) ==
              if (start + |before|) % Capacity == j then Some(db) else Latest(before, start, j)
  {
    assert (before + [db])[..|before|] == before;
  }

  /** A slot that a write `back` places from the end landed in is found. */
  lemma {:induction false} LatestFindsWrite(dbs: seq<real>, start: nat, j: nat, back: nat)
    requires back < |dbs|
    requires (start + |dbs| - 1 - back) % Capacity == j
    ensures Latest(dbs, start, j).Some?
    decreases back
  {
    if (start + |dbs| - 1) % Capacity != j {
      assert back != 0;
      var earlier := dbs[..|dbs| - 1];
      LatestFindsWrite(earlier, start, j, back - 1);
    }
  }

  /** Once `Capacity` readings have been written, no slot is left untouched. */
  lemma LatestCovers(dbs: seq<real>, start: nat, j: nat)
    requires |dbs| >= Capacity && j < Capacity
    ensures Latest(dbs, start, j).Some?
  {
    var last := start + |dbs| - 1;
    var slot := last % Capacity;
    var back := (slot - j) % Capacity;
    assert last == Capacity * (last / Capacity) + slot;
    assert slot - j == Capacity * ((slot - j) / Capacity) + back;
    var c := last / Capacity + (slot - j) / Capacity;
    assert last - back == c * Capacity + j;
    DivisionUnique(last - back, Capacity, c, j);
    LatestFindsWrite(dbs, start, j, back);
  }

  /** Whatever a slot holds was one of the readings written. */
  lemma {:induction false} LatestIsWritten(dbs: seq<real>, start: nat, j: nat)
    ensures Latest(dbs, start, j).Some? ==> Latest(dbs, start, j).value in dbs
    decreases |dbs|
  {
    if |dbs| > 0 && (start + |dbs| - 1) % Capacity != j {
      var earlier := dbs[..|dbs| - 1];
      LatestIsWritten(earlier, start, j);
      assert forall x :: x in earlier ==> x in dbs;
    }
  }

  function Sum(s: seq<real>): real {
    if |s| == 0 then 0.0 else Sum(s[..|s| - 1]) + s[|s| - 1]
  }

  /** `FloatArray.average()`. */
  function Average(s: seq<real>): real
    requires |s| > 0
  {
    Sum(s) / |s| as real
  }

  function Square(x: real): (y: real)
    ensures 0.0 <= y
  {
    x * x
  }

  /** The population-variance numerator: the sum of `(x - mean)²` over `s`. */
  function SquaredDeviations(s: seq<real>, mean: real): real {
    if |s| == 0 then 0.0 else SquaredDeviations(s[..|s| - 1], mean) + Square(s[|s| - 1] - mean)
  }

  /** `s.reduce { acc, x -> acc + (x - mean) * (x - mean) }`: Kotlin's
      `reduce` starts the accumulator at `s[0]` itself and folds the operation
      over the remaining elements only. */
  function ReduceSquares(s: seq<real>, mean: real): real
    requires |s| > 0
  {
    if |s| == 1 then s[0] else ReduceSquares(s[..|s| - 1], mean) + Square(s[|s| - 1] - mean)
  }

  /** The population standard deviation: the root of the mean squared
      deviation from the mean. */
  function PopulationDeviation(lib: Library, h: seq<real>): real
    requires |h| > 0
  {
    lib.sqrt(SquaredDeviations(h, Average(h)) / |h| as real)
  }

  /** The reduce-based sum equals the population sum with slot 0's squared
      deviation replaced by slot 0's raw value. */
  lemma {:induction false} ReduceSeedsWithFirstSlot(s: seq<real>, mean: real)
    requires |s| > 0
    ensures ReduceSquares(s, mean) == SquaredDeviations(s, mean) - Square(s[0] - mean) + s[0]
    decreases |s|
  {
    if |s| > 1 {
      var earlier := s[..|s| - 1];
      ReduceSeedsWithFirstSlot(earlier, mean);
      assert earlier[0] == s[0];
    } else {
      assert s[..0] == [];
    }
  }

  /** Squared deviations add up to at least the first one. */
  lemma {:induction false} SquaredDeviationsCoverFirst(s: seq<real>, mean: real)
    requires |s| > 0
    ensures SquaredDeviations(s, mean) >= Square(s[0] - mean) >= 0.0
    decreases |s|
  {
    if |s| > 1 {
      var earlier := s[..|s| - 1];
      SquaredDeviationsCoverFirst(earlier, mean);
      assert earlier[0] == s[0];
    } else {
      assert s[..0] == [];
    }
  }

  /** `amplitudeHistoryStandardDeviation`: the root of the `reduce` sum over
      the number of slots, that is, of the population sum of squared
      deviations with slot 0's replaced by slot 0's raw value.  It is
      non-negative whenever slot 0 is. */
  function StandardDeviation(lib: Library, h: seq<real>): (sd: real)
    requires |h| > 0
    ensures var mean := Average(h);
            sd == lib.sqrt((SquaredDeviations(h, mean) - Square(h[0] - mean) + h[0]) / |h| as real)
    ensures Lawful(lib) && 0.0 <= h[0] ==> 0.0 <= sd
  {
    ReduceSeedsWithFirstSlot(h, Average(h));
    SquaredDeviationsCoverFirst(h, Average(h));
    lib.sqrt(ReduceSquares(h, Average(h)) / |h| as real)
  }

  /** The deviation the recorder reports agrees with the population deviation
      if slot 0's value equals its own squared deviation; for a non-negative
      slot 0, as every decibel reading is, only then. */
  lemma DeviationAsWritten(lib: Library, h: seq<real>)
    requires |h| > 0
    ensures h[0] == Square(h[0] - Average(h)) ==> StandardDeviation(lib, h) == PopulationDeviation(lib, h)
    ensures Lawful(lib) && 0.0 <= h[0] && StandardDeviation(lib, h) == PopulationDeviation(lib, h) ==>
              h[0] == Square(h[0] - Average(h))
  {
    var mean := Average(h);
    var n := |h| as real;
    SquaredDeviationsCoverFirst(h, mean);
    var seeded := SquaredDeviations(h, mean) - Square(h[0] - mean) + h[0];
    if Lawful(lib) && 0.0 <= h[0] && StandardDeviation(lib, h) == PopulationDeviation(lib, h) {
      assert 0.0 <= seeded / n && 0.0 <= SquaredDeviations(h, mean) / n;
      assert lib.sqrt(seeded / n) == lib.sqrt(SquaredDeviations(h, mean) / n);
      assert seeded / n == SquaredDeviations(h, mean) / n;
    }
  }

  /** A tracker that starts non-negative and is fed the non-negative raw
      amplitudes a media recorder reports keeps non-negative readings. */
  lemma {:induction false} FeedKeepsNonNegative(lib: Library, t: Tracker, amplitudes: seq<int>)
    requires Lawful(lib) && Valid(t)
    requires forall j :: 0 <= j < Capacity ==> t.history[j] >= 0.0
    requires forall k :: 0 <= k < |amplitudes| ==> amplitudes[k] >= 0
    ensures forall j :: 0 <= j < Capacity ==> Feed(lib, t, amplitudes).history[j] >= 0.0
  {
    FeedMatchesLatest(lib, t, amplitudes);
    var dbs := Readings(lib, amplitudes);
    forall j | 0 <= j < Capacity
      ensures Feed(lib, t, amplitudes).history[j] >= 0.0
    {
      LatestIsWritten(dbs, t.sampleCount, j);
    }
  }

  /** For every history a fresh recorder can reach, the reported deviation
      is the population deviation exactly when slot 0 equals its own squared
      deviation. */
  lemma RecordedDeviationAgreesExactlyWhen(lib: Library, amplitudes: seq<int>)
    requires Lawful(lib)
    requires forall k :: 0 <= k < |amplitudes| ==> amplitudes[k] >= 0
    ensures var h := Feed(lib, Initial(), amplitudes).history;
            StandardDeviation(lib, h) == PopulationDeviation(lib, h) <==> h[0] == Square(h[0] - Average(h))
  {
    FeedKeepsNonNegative(lib, Initial(), amplitudes);
    DeviationAsWritten(lib, Feed(lib, Initial(), amplitudes).history);
  }

  /** `normalizedAmplitude`: the standard score of the last reading against
      the history, `min(score, 1)`.  When the deviation is zero the float
      quotient is not finite: `+∞` when the last reading is above the mean,
      which the `min` turns into 1, and `-∞` or NaN otherwise, which is `None`
      here. */
  function NormalizedAmplitude(lib: Library, t: Tracker): (r: Option<real>)
    requires Valid(t)
    ensures r.Some? ==> r.value <= 1.0
    ensures var deviation := StandardDeviation(lib, t.history);
            var above := t.lastAmplitude - Average(t.history);
            && (deviation != 0.0 ==> r.Some? && (r.value == 1.0 <==> above / deviation >= 1.0)
                                              && (above / deviation < 1.0 ==> r.value == above / deviation))
            && (deviation == 0.0 ==> (r.Some? <==> above > 0.0))
            && (deviation == 0.0 && above > 0.0 ==> r == Some(1.0))
  {
    var mean := Average(t.history);
    var deviation := StandardDeviation(lib, t.history);
    var above := t.lastAmplitude - mean;
    if deviation != 0.0 then Some(Min(above / deviation, 1.0))
    else if above > 0.0 then Some(1.0)
    else None
  }

  lemma {:induction false} SumOfConstant(s: seq<real>, v: real)
    requires forall k :: 0 <= k < |s| ==> s[k] == v
    ensures Sum(s) == |s| as real * v
    decreases |s|
  {
    if |s| > 0 {
      SumOfConstant(s[..|s| - 1], v);
    }
  }

  lemma {:induction false} DeviationsOfConstant(s: seq<real>, v: real)
    requires forall k :: 0 <= k < |s| ==> s[k] == v
    ensures SquaredDeviations(s, v) == 0.0
    decreases |s|
  {
    if |s| > 0 {
      DeviationsOfConstant(s[..|s| - 1], v);
    }
  }

  lemma {:induction false} ReadingsOfConstant(lib: Library, a: int, n: nat)
    requires a != 0
    ensures Readings(lib, seq(n, _ => a)) == seq(n, _ => Decibels(lib, a))
    decreases n
  {
    if n > 0 {
      assert seq(n, _ => a)[..n - 1] == seq(n - 1, _ => a);
      ReadingsOfConstant(lib, a, n - 1);
      assert seq(n - 1, _ => Decibels(lib, a)) + [Decibels(lib, a)] == seq(n, _ => Decibels(lib, a));
    }
  }

  /** At least `Capacity` equal non-zero amplitudes, from any state, fill
      every slot and the last reading with their decibel value. */
  lemma SteadyInputFillsRing(lib: Library, t: Tracker, a: int, n: nat)
    requires Valid(t)
    requires a != 0 && n >= Capacity
    ensures var r := Feed(lib, t, seq(n, _ => a));
            && r.lastAmplitude == Decibels(lib, a)
            && forall j :: 0 <= j < Capacity ==> r.history[j] == Decibels(lib, a)
  {
    var amplitudes := seq(n, _ => a);
    var dbs := Readings(lib, amplitudes);
    ReadingsOfConstant(lib, a, n);
    FeedMatchesLatest(lib, t, amplitudes);
    var r := Feed(lib, t, amplitudes);
    forall j | 0 <= j < Capacity
      ensures r.history[j] == Decibels(lib, a)
    {
      LatestCovers(dbs, t.sampleCount, j);
      LatestIsWritten(dbs, t.sampleCount, j);
    }
  }

  /** A steady input scores exactly zero: once at least `Capacity` equal
      readings above 0 dB have filled the ring, from any starting state, the
      last reading equals the mean.  Because of the reduce seed the deviation
      is then `sqrt(dB / 200)`, not 0, so the score is a number. */
  lemma SteadyInputScoresZero(lib: Library, t: Tracker, a: int, n: nat)
    requires Lawful(lib) && Valid(t)
    requires a > 1 && n >= Capacity
    ensures NormalizedAmplitude(lib, Feed(lib, t, seq(n, _ => a))) == Some(0.0)
  {
    var d := Decibels(lib, a);
    SteadyInputFillsRing(lib, t, a, n);
    var r := Feed(lib, t, seq(n, _ => a));
    SumOfConstant(r.history, d);
    assert Average(r.history) == d;
    ReduceSeedsWithFirstSlot(r.history, d);
    DeviationsOfConstant(r.history, d);
    assert ReduceSquares(r.history, d) == d;
    assert 0.0 < d / Capacity as real;
    assert StandardDeviation(lib, r.history) != 0.0;
  }

  /** The same steady input has population deviation zero and the last
      reading sits exactly on the mean, so a standard score against the
      population deviation would be the float quotient 0 / 0, not a number. */
  lemma SteadyInputHasNoPopulationDeviation(lib: Library, t: Tracker, a: int, n: nat)
    requires Lawful(lib) && Valid(t)
    requires a != 0 && n >= Capacity
    ensures var r := Feed(lib, t, seq(n, _ => a));
            && PopulationDeviation(lib, r.history) == 0.0
            && r.lastAmplitude - Average(r.history) == 0.0
  {
    var d := Decibels(lib, a);
    SteadyInputFillsRing(lib, t, a, n);
    var r := Feed(lib, t, seq(n, _ => a));
    SumOfConstant(r.history, d);
    assert Average(r.history) == d;
    DeviationsOfConstant(r.history, d);
  }

  /** Zero amplitudes are dropped: a tracker fed only zeros is unchanged. */
  lemma {:induction false} SilenceChangesNothing(lib: Library, t: Tracker, amplitudes: seq<int>)
    requires Valid(t)
    requires forall k :: 0 <= k < |amplitudes| ==> amplitudes[k] == 0
    ensures Feed(lib, t, amplitudes) == t
    decreases |amplitudes|
  {
    if |amplitudes| > 0 {
      SilenceChangesNothing(lib, t, amplitudes[..|amplitudes| - 1]);
    }
  }

  /** Silence alone never yields a score: fed only zero amplitudes, a fresh
      recorder still has a zero history, a zero deviation and no reading
      above the mean, so the quotient is NaN. */
  lemma SilenceHasNoScore(lib: Library, amplitudes: seq<int>)
    requires Lawful(lib)
    requires forall k :: 0 <= k < |amplitudes| ==> amplitudes[k] == 0
    ensures NormalizedAmplitude(lib, Feed(lib, Initial(), amplitudes)) == None
  {
    SilenceChangesNothing(lib, Initial(), amplitudes);
    var h := Initial().history;
    SumOfConstant(h, 0.0);
    assert Average(h) == 0.0;
    ReduceSeedsWithFirstSlot(h, 0.0);
    DeviationsOfConstant(h, 0.0);
    assert StandardDeviation(lib, h) == 0.0;
  }
}

=== FILE: client.dfy ===
/** `AudioRecorderClient`: the recorder used when recording runs in a
    foreground service.  Two nullable fields, the parameters of a pending
    `record` call and the bound service, drive a small lifecycle: a record
    request is parked until the service connects, then forwarded to it. */
module RecorderClient {
  import opened Optional

  /** The arguments of a `record` call.  The React context and the callbacks
      it also carries are opaque to the client and are left out. */
  datatype RecordParams = RecordParams(identifier: string)

  /** A bound `AudioRecorderService`, told apart by an identity. */
  datatype Service = Service(id: nat)

  datatype Client = Client(params: Option<RecordParams>, service: Option<Service>)

  /** What the client asks of Android and of the service, and what it logs. */
  datatype Effect =
    | StartForegroundService(identifier: string)
    | BindService
    | ForwardRecord(to: Service, params: RecordParams)
    | ForwardStop(to: Service)
    | ForwardCancel(to: Service)
    | UnbindService
    | StopService
    | LogError(message: string)

  datatype Step = Step(client: Client, effects: seq<Effect>)

  const Idle: Client := Client(None, None)

  /** `record`: accepted only when nothing is pending and no service is
      bound; the parameters are parked and the service started and bound. */
  function Record(c: Client, p: RecordParams): (s: Step)
    ensures c == Idle ==> s == Step(Client(Some(p), None), [StartForegroundService(p.identifier), BindService])
    ensures c != Idle ==> s.client == c && |s.effects| == 1 && s.effects[0].LogError?
  {
    if c.params == None && c.service == None then
      Step(c.(params := Some(p)), [StartForegroundService(p.identifier), BindService])
    else
      Step(c, [LogError("Cannot start record while service is already recording")])
  }

  /** `stopAudioRecorderService`: forward the stop to the bound service,
      unbind and stop it, and forget both fields. */
  function StopAudioRecorderService(c: Client): (s: Step)
    ensures c.service.Some? ==>
              s == Step(Idle, [ForwardStop(c.service.value), UnbindService, StopService])
    ensures c.service.None? ==> s.client == c && |s.effects| == 1 && s.effects[0].LogError?
  {
    match c.service
    case Some(service) => Step(Idle, [ForwardStop(service), UnbindService, StopService])
    case None => Step(c, [LogError("Cannot stop service without reference, or not started")])
  }

  /** `stopRecording`: only with a bound service. */
  function StopRecording(c: Client): (s: Step)
    ensures c.service.Some? ==> s == Step(Idle, [ForwardStop(c.service.value), UnbindService, StopService])
    ensures c.service.None? ==> s.client == c && |s.effects| == 1 && s.effects[0].LogError?
  {
    if c.service.Some? then StopAudioRecorderService(c)
    else Step(c, [LogError("Cannot stop record while service is already stopping")])
  }

  /** `cancelRecording`: only with a bound service; the service cancels, and
      it is unbound and stopped when parameters were parked. */
  function CancelRecording(c: Client): (s: Step)
    ensures c.service.Some? ==>
              && s.client == Idle
              && s.effects == [ForwardCancel(c.service.value)] + (if c.params.Some? then [UnbindService, StopService] else [])
    ensures c.service.None? ==> s.client == c && |s.effects| == 1 && s.effects[0].LogError?
  {
    match c.service
    case Some(service) =>
      var teardown := if c.params.Some? then [UnbindService, StopService] else [];
      Step(Idle, [ForwardCancel(service)] + teardown)
    case None => Step(c, [LogError("Cannot cancel service without reference, or not started")])
  }

  /** `onServiceDisconnected`: a bound service is dropped together with the
      parked parameters; with no service bound nothing changes, not even
      parked parameters. */
  function OnServiceDisconnected(c: Client): (s: Step)
    ensures s.client.service == None
    ensures s.client.params == if c.service.Some? then None else c.params
    ensures c.service.None? ==> s.effects == []
  {
    if c.service.Some? then Step(Idle, [LogError("Audio recording service was disconnected")])
    else Step(c, [])
  }

  /** `onServiceConnected`: the binder yields the service, or nothing when it
      is not the recorder service's binder.  Parked parameters are forwarded
      to the service and stay parked. */
  function OnServiceConnected(c: Client, bound: Option<Service>): (s: Step)
    ensures s.client == Client(c.params, bound)
    ensures s.effects == if c.params.Some? && bound.Some? then [ForwardRecord(bound.value, c.params.value)] else []
  {
    var forwarded := if c.params.Some? && bound.Some? then [ForwardRecord(bound.value, c.params.value)] else [];
    Step(c.(service := bound), forwarded)
  }

  /** `normalizedAmplitude`: the bound service's reading, or 0 without one. */
  function NormalizedAmplitude(c: Client, serviceReading: real): (a: real)
    ensures c.service.None? ==> a == 0.0
    ensures c.service.Some? ==> a == serviceReading
  {
    match c.service
    case Some(_) => serviceReading
    case None => 0.0
  }

  /** A whole session from idle: the parked parameters reach the service once
      it connects, and stopping returns the client to idle having forwarded
      exactly one record and one stop to that service. */
  lemma SessionReturnsToIdle(p: RecordParams, service: Service)
    ensures var recorded := Record(Idle, p);
            var connected := OnServiceConnected(recorded.client, Some(service));
            var stopped := StopRecording(connected.client);
            && connected.effects == [ForwardRecord(service, p)]
            && stopped.client == Idle
            && recorded.effects + connected.effects + stopped.effects ==
                 [StartForegroundService(p.identifier), BindService, ForwardRecord(service, p),
                  ForwardStop(service), UnbindService, StopService]
  {
  }

  /** Record requests do not stack: once one has been accepted, every later
      one is refused until the client is idle again. */
  lemma SecondRecordRefused(c: Client, p: RecordParams, q: RecordParams)
    ensures var first := Record(c, p);
            Record(first.client, q).client == first.client
  {
  }

  /** When the binder is not the recorder service's, the client is stuck with
      parked parameters and no service: record, stop, cancel and disconnect
      all leave it as it is, and only a later connection frees it. */
  lemma UnboundParamsAreStuck(p: RecordParams, q: RecordParams)
    ensures var stuck := OnServiceConnected(Record(Idle, p).client, None).client;
            && stuck == Client(Some(p), None)
            && Record(stuck, q).client == stuck
            && StopRecording(stuck).client == stuck
            && CancelRecording(stuck).client == stuck
            && OnServiceDisconnected(stuck).client == stuck
  {
  }

  /** A session that is cancelled instead of stopped also ends idle, after
      the service has cancelled and been unbound and stopped. */
  lemma CancelledSessionReturnsToIdle(p: RecordParams, service: Service)
    ensures var recorded := Record(Idle, p);
            var connected := OnServiceConnected(recorded.client, Some(service));
            var cancelled := CancelRecording(connected.client);
            && cancelled.client == Idle
            && cancelled.effects == [ForwardCancel(service), UnbindService, StopService]
  {
  }

  /** From any client with a bound service, stopping, cancelling and losing
      the service each end idle, and the next record is accepted. */
  lemma EndingsFreeTheClient(c: Client, p: RecordParams)
    requires c.service.Some?
    ensures StopRecording(c).client == Idle
    ensures CancelRecording(c).client == Idle
    ensures OnServiceDisconnected(c).client == Idle
    ensures Record(StopRecording(c).client, p).effects == [StartForegroundService(p.identifier), BindService]
    ensures Record(CancelRecording(c).client, p).effects == [StartForegroundService(p.identifier), BindService]
    ensures Record(OnServiceDisconnected(c).client, p).effects == [StartForegroundService(p.identifier), BindService]
  {
  }

  /** The amplitude the client reports follows the binding: recording alone
      does not change it, a connection makes it the service's reading, and
      every way of ending makes it 0. */
  lemma AmplitudeFollowsBinding(c: Client, p: RecordParams, service: Service, reading: real)
    ensures NormalizedAmplitude(Record(c, p).client, reading) == NormalizedAmplitude(c, reading)
    ensures NormalizedAmplitude(OnServiceConnected(c, Some(service)).client, reading) == reading
    ensures NormalizedAmplitude(OnServiceConnected(c, None).client, reading) == 0.0
    ensures c.service.Some? ==> NormalizedAmplitude(StopRecording(c).client, reading) == 0.0
    ensures c.service.Some? ==> NormalizedAmplitude(CancelRecording(c).client, reading) == 0.0
    ensures NormalizedAmplitude(OnServiceDisconnected(c).client, reading) == 0.0
  {
  }
}

=== FILE: maths.dfy ===
/** Option and Result, the shapes the model uses for Kotlin's nullable values
    and for getters that answer either a value or an error message. */
module Optional {

  /** A Kotlin nullable value: absent, or present with its value. */
  datatype Option<+T> = None | Some(value: T)

  /** The elvis operator `o ?: fallback`. */
  function Elvis<T>(o: Option<T>, fallback: T): (v: T)
    ensures o.Some? ==> v == o.value
    ensures o.None? ==> v == fallback
  {
    if o.Some? then o.value else fallback
  }

  /** An answer, or the error message given in its place. */
  datatype Result<+R, +E> = Ok(value: R) | Err(error: E)
}

/** Kotlin's integer and float arithmetic, restated over Dafny's unbounded
    `int` and exact `real`.  The float library functions the source calls
    (`log10`, `sqrt`, `sin`) are not definable over `real`, so they are handed
    to the model as a `Library` value; `Lawful` lists the only facts about
    them that any proof relies on. */
module Maths {

  /** Kotlin `Int` division `a / b` for a positive divisor: it truncates
      toward zero, unlike Dafny's Euclidean `/`. */
  function Div(a: int, b: int): (q: int)
    requires b > 0
    ensures a >= 0 ==> 0 <= q && q * b <= a < q * b + b
    ensures a < 0 ==> q <= 0 && q * b - b < a <= q * b
  {
    if a >= 0 then
      EuclideanBounds(a, b);
      a / b
    else
      EuclideanBounds(-a, b);
      NegatedProduct((-a) / b, b);
      -((-a) / b)
  }

  /** For a non-negative dividend Euclidean and truncating division agree. */
  lemma EuclideanBounds(n: int, b: int)
    requires n >= 0 && b > 0
    ensures 0 <= n / b && n / b * b <= n < n / b * b + b
  {
    assert n == n / b * b + n % b;
  }

  lemma NegatedProduct(m: int, b: int)
    ensures (-m) * b == -(m * b)
  {
  }

  /** Multiplying by a non-negative factor keeps the order. */
  lemma ScaleMonotone(x: real, u: real, v: real)
    requires 0.0 <= x && u <= v
    ensures x * u <= x * v
  {
    assert x * v - x * u == x * (v - u);
  }

  /** Euclidean division is determined by its quotient-remainder equation. */
  lemma DivisionUnique(a: int, b: int, q: int, r: int)
    requires b > 0 && 0 <= r < b && a == q * b + r
    ensures a / b == q && a % b == r
  {
    var q', r' := a / b, a % b;
    assert (q - q') * b == r' - r;
    if q - q' >= 1 {
      assert false;
    } else if q - q' <= -1 {
      assert false;
    }
  }

  /** Kotlin `Int` remainder `a % b` for a positive divisor: it takes the
      sign of `a`. */
  function Rem(a: int, b: int): (r: int)
    requires b > 0
    ensures a == Div(a, b) * b + r
    ensures a >= 0 ==> 0 <= r < b && r == a % b
    ensures a < 0 ==> -b < r <= 0
  {
    a - Div(a, b) * b
  }

  /** Kotlin `Float.toInt()` on a finite value: rounds toward zero. */
  function Truncate(x: real): (n: int)
    ensures 0.0 <= x ==> 0 <= n && n as real <= x < n as real + 1.0
    ensures x < 0.0 ==> n <= 0 && n as real - 1.0 < x <= n as real
  {
    if x >= 0.0 then x.Floor else -((-x).Floor)
  }

  function Min(a: real, b: real): (m: real)
    ensures m <= a && m <= b
    ensures m == a || m == b
  {
    if a <= b then a else b
  }

  function Max(a: real, b: real): (m: real)
    ensures a <= m && b <= m
    ensures m == a || m == b
  {
    if a >= b then a else b
  }

  function Abs(x: real): (y: real)
    ensures 0.0 <= y
    ensures y == x || y == -x
  {
    if x < 0.0 then -x else x
  }

  /** `kotlin.math.PI`, the double nearest to pi. */
  const Pi: real := 3.141592653589793

  /** The three float library functions the source calls. */
  datatype Library = Library(log10: real -> real, sqrt: real -> real, sin: real -> real)

  /** The facts about the library functions that the proofs use: sine stays
      within [-1, 1]; the square root of a non-negative number is
      non-negative, zero exactly at zero, and no two non-negative numbers
      share one; the logarithm of one is zero and of a number above one is
      positive. */
  ghost predicate Lawful(lib: Library) {
    && (forall t :: -1.0 <= lib.sin(t) <= 1.0)
    && (forall t :: 0.0 <= t ==> 0.0 <= lib.sqrt(t) && (lib.sqrt(t) == 0.0 <==> t == 0.0))
    && (forall t, u :: 0.0 <= t && 0.0 <= u && lib.sqrt(t) == lib.sqrt(u) ==> t == u)
    && lib.log10(1.0) == 0.0
    && (forall x :: 1.0 < x ==> 0.0 < lib.log10(x))
  }
}

=== FILE: player.dfy ===
/** `AudioPlayer`: playback of one file at a time with pause, resume and
    stop, driven by the app and by the audio-focus callbacks.  The media
    player is modelled as present or absent together with its data source;
    whether a focus request is granted and whether the media player reports
    itself playing are inputs. */
module Player {
  import opened Optional
  import opened Maths

  datatype Player = Player(isPaused: bool, media: Option<string>)

  /** The player callbacks (`onPlayerDidStart`, ...). */
  datatype Event = DidStart | DidRestart | DidPause | DidResume | DidStop | DidFinish | DidErrorOccur

  datatype Step = Step(player: Player, events: seq<Event>)

  /** `AudioManager.AUDIOFOCUS_*` values. */
  const FocusGain: int := 1
  const FocusLoss: int := -1
  const FocusLossTransient: int := -2
  const FocusLossTransientCanDuck: int := -3

  const NotAvailable: string := "Player is not available."

  const Initial: Player := Player(false, None)

  /** `play`: with focus, a media player that is playing is released first
      (announcing a restart), then a new one is created for `path` and
      prepared; the paused flag is left as it was. */
  function Play(p: Player, path: string, focusGranted: bool, isPlaying: bool): (s: Step)
    ensures !focusGranted ==> s == Step(p, [])
    ensures focusGranted ==> s.player == Player(p.isPaused, Some(path))
    ensures focusGranted ==> (s.events == [DidRestart] <==> p.media.Some? && isPlaying)
    ensures focusGranted ==> (s.events == [] <==> !(p.media.Some? && isPlaying))
  {
    if !focusGranted then Step(p, [])
    else
      var restart := if p.media.Some? && isPlaying then [DidRestart] else [];
      Step(p.(media := Some(path)), restart)
  }

  /** `pause`: always marks the player paused; only an existing media player
      is paused and announced. */
  function Pause(p: Player): (s: Step)
    ensures s.player == p.(isPaused := true)
    ensures s.events == if p.media.Some? then [DidPause] else []
  {
    Step(p.(isPaused := true), if p.media.Some? then [DidPause] else [])
  }

  /** `resume`: with focus, marks the player not paused; only an existing
      media player is started and announced. */
  function Resume(p: Player, focusGranted: bool): (s: Step)
    ensures !focusGranted ==> s == Step(p, [])
    ensures focusGranted ==> s.player == p.(isPaused := false)
    ensures focusGranted ==> s.events == if p.media.Some? then [DidResume] else []
  {
    if !focusGranted then Step(p, [])
    else Step(p.(isPaused := false), if p.media.Some? then [DidResume] else [])
  }

  /** `togglePlayPause`: resume a paused player, pause any other. */
  function TogglePlayPause(p: Player, focusGranted: bool): (s: Step)
    ensures p.isPaused ==> s == Resume(p, focusGranted)
    ensures !p.isPaused ==> s == Pause(p)
  {
    if p.isPaused then Resume(p, focusGranted) else Pause(p)
  }

  /** `stop`: an existing media player is stopped and dropped, the player is
      no longer paused, and the stop is announced; otherwise nothing. */
  function Stop(p: Player): (s: Step)
    ensures p.media.None? ==> s == Step(p, [])
    ensures p.media.Some? ==> s == Step(Initial, [DidStop])
  {
    if p.media.Some? then Step(Player(false, None), [DidStop]) else Step(p, [])
  }

  /** `release`: the media player is dropped silently; the paused flag stays. */
  function Release(p: Player): (s: Step)
    ensures s.player.media == None && s.player.isPaused == p.isPaused
    ensures s.events == []
  {
    Step(p.(media := None), [])
  }

  /** `onPrepared`: a prepared media player starts, unpaused, and the start is
      announced. */
  function OnPrepared(p: Player): (s: Step)
    ensures p.media.Some? ==> s == Step(p.(isPaused := false), [DidStart])
    ensures p.media.None? ==> s == Step(p, [])
  {
    if p.media.Some? then Step(p.(isPaused := false), [DidStart]) else Step(p, [])
  }

  /** `onCompletion`: the end of the file is announced and the player is no
      longer paused; the media player is kept. */
  function OnCompletion(p: Player): (s: Step)
    ensures s == Step(p.(isPaused := false), [DidFinish])
  {
    Step(p.(isPaused := false), [DidFinish])
  }

  /** `onError`: the error is announced and reported handled. */
  function OnError(p: Player): (result: (Step, bool))
    ensures result.0 == Step(p, [DidErrorOccur]) && result.1
  {
    (Step(p, [DidErrorOccur]), true)
  }

  /** `onAudioFocusChange`: a loss, permanent or transient, pauses; a gain
      resumes a paused player, asking for focus again; ducking and any other
      value change nothing. */
  function OnAudioFocusChange(p: Player, change: int, focusGranted: bool): (s: Step)
    ensures change == FocusLoss || change == FocusLossTransient ==> s == Pause(p)
    ensures change == FocusGain && p.isPaused ==> s == Resume(p, focusGranted)
    ensures change == FocusGain && !p.isPaused ==> s == Step(p, [])
    ensures change !in {FocusLoss, FocusLossTransient, FocusGain} ==> s == Step(p, [])
  {
    if change == FocusLoss then Pause(p)
    else if change == FocusLossTransient then Pause(p)
    else if change == FocusLossTransientCanDuck then Step(p, [])
    else if change == FocusGain then (if p.isPaused then Resume(p, focusGranted) else Step(p, []))
    else Step(p, [])
  }

  /** `seekToNormalizedPlaybackPoint`: the millisecond the media player seeks
      to, `(duration · point).toInt()`, when there is one. */
  function SeekTarget(p: Player, durationMillis: int, point: real): (target: Option<int>)
    ensures p.media.None? <==> target.None?
    ensures target.Some? ==> target.value == Truncate(durationMillis as real * point)
    ensures target.Some? && 0 <= durationMillis && 0.0 <= point <= 1.0 ==> 0 <= target.value <= durationMillis
  {
    if p.media.None? then None
    else
      var exact := durationMillis as real * point;
      var millis := Truncate(exact);
      InScaledRange(durationMillis as real, point, exact);
      assert 0 <= durationMillis && 0.0 <= point <= 1.0 ==> millis as real <= durationMillis as real;
      Some(millis)
  }

  /** Scaling a non-negative length by a fraction in [0, 1] stays within it. */
  lemma InScaledRange(length: real, fraction: real, scaled: real)
    requires scaled == length * fraction
    ensures 0.0 <= length && 0.0 <= fraction <= 1.0 ==> 0.0 <= scaled <= length
  {
    if 0.0 <= length && 0.0 <= fraction <= 1.0 {
      assert length * fraction <= length * 1.0;
    }
  }

  /** What `getPlaybackInfo` reports: the fraction played, absent when the
      duration is zero and the float quotient is infinite or not a number,
      and the position in seconds. */
  datatype PlaybackInfo = PlaybackInfo(point: Option<real>, seconds: real)

  /** `getPlaybackInfo`. */
  function GetPlaybackInfo(p: Player, positionMillis: int, durationMillis: int): (r: Result<PlaybackInfo, string>)
    ensures p.media.None? <==> r == Err(NotAvailable)
    ensures r.Ok? ==> r.value.seconds * 1000.0 == positionMillis as real
    ensures r.Ok? && durationMillis != 0 ==>
              r.value.point.Some? && r.value.point.value * durationMillis as real == positionMillis as real
  {
    if p.media.None? then Err(NotAvailable)
    else
      var point := if durationMillis != 0 then Some(positionMillis as real / durationMillis as real) else None;
      Ok(PlaybackInfo(point, positionMillis as real / 1000.0))
  }

  /** `getPlaybackDuration`: the duration in seconds. */
  function GetPlaybackDuration(p: Player, durationMillis: int): (r: Result<real, string>)
    ensures p.media.None? <==> r == Err(NotAvailable)
    ensures r.Ok? ==> r.value * 1000.0 == durationMillis as real
  {
    if p.media.None? then Err(NotAvailable) else Ok(durationMillis as real / 1000.0)
  }

  /** With focus granted, toggling twice restores the paused flag and the
      media player, announcing a pause and a resume in the order of the
      flag when there is a media player. */
  lemma ToggleTwiceRestores(p: Player)
    ensures var once := TogglePlayPause(p, true);
            var twice := TogglePlayPause(once.player, true);
            && twice.player == p
            && once.events + twice.events ==
                 (if p.media.None? then []
                  else if p.isPaused then [DidResume, DidPause]
                  else [DidPause, DidResume])
  {
  }

  /** A transient focus loss followed by a regained, granted focus pauses and
      then resumes, ending unpaused with the same media player. */
  lemma FocusLossThenGainResumes(p: Player)
    ensures var lost := OnAudioFocusChange(p, FocusLossTransient, true);
            var regained := OnAudioFocusChange(lost.player, FocusGain, true);
            && regained.player == p.(isPaused := false)
            && lost.events + regained.events == (if p.media.Some? then [DidPause, DidResume] else [])
  {
  }

  /** Stopping twice is stopping once: the second stop announces nothing. */
  lemma StopIsIdempotent(p: Player)
    ensures Stop(Stop(p).player) == Step(Stop(p).player, [])
  {
  }

  /** After `release` or `stop` every getter reports the player missing. */
  lemma GettersAfterTeardown(p: Player, positionMillis: int, durationMillis: int)
    ensures var released := Release(p).player;
            && GetPlaybackInfo(released, positionMillis, durationMillis) == Err(NotAvailable)
            && GetPlaybackDuration(released, durationMillis) == Err(NotAvailable)
    ensures var stopped := Stop(p).player;
            && GetPlaybackInfo(stopped, positionMillis, durationMillis) == Err(NotAvailable)
            && GetPlaybackDuration(stopped, durationMillis) == Err(NotAvailable)
  {
  }

  /** Playing with focus and then preparing always ends unpaused on the new
      file, announcing a restart first exactly when a media player was
      playing. */
  lemma PlayThenPreparedStarts(p: Player, path: string, isPlaying: bool)
    ensures var played := Play(p, path, true, isPlaying);
            var prepared := OnPrepared(played.player);
            && prepared.player == Player(false, Some(path))
            && played.events + prepared.events ==
                 (if p.media.Some? && isPlaying then [DidRestart] else []) + [DidStart]
  {
  }

  /** A finished file counts as playing: the next toggle pauses it, whatever
      the paused flag was before. */
  lemma CompletionThenTogglePauses(p: Player, focusGranted: bool)
    ensures var finished := OnCompletion(p);
            TogglePlayPause(finished.player, focusGranted) ==
              Step(p.(isPaused := true), if p.media.Some? then [DidPause] else [])
  {
  }

  /** An error leaves the player as it was: both getters answer as before
      and stopping afterwards is stopping now. */
  lemma ErrorKeepsPlayer(p: Player, positionMillis: int, durationMillis: int)
    ensures var errored := OnError(p).0.player;
            && GetPlaybackInfo(errored, positionMillis, durationMillis) == GetPlaybackInfo(p, positionMillis, durationMillis)
            && GetPlaybackDuration(errored, durationMillis) == GetPlaybackDuration(p, durationMillis)
            && Stop(errored) == Stop(p)
  {
  }
}

=== FILE: recorder.dfy ===
/** The recording side of `AudioRecorder`: the `isRecording` state machine
    around the media recorder, the single sampling timer, and the file name
    reported when a recording stops.  The media recorder itself, audio focus,
    the microphone permission and the recording file's path are inputs. */
module Recorder {
  import opened Optional
  import opened Maths
  import Amplitude

  /** The sampling timer field and the timers that are scheduled and not yet
      cancelled.  Timers are told apart by the order in which they were made. */
  datatype Sampler = Sampler(current: Option<nat>, scheduled: set<nat>, made: nat)

  /** No timer is running except the one the field refers to. */
  predicate SamplerValid(s: Sampler) {
    && s.scheduled == (if s.current.Some? then {s.current.value} else {})
    && (s.current.Some? ==> s.current.value < s.made)
  }

  /** `stopAmplitudeSampling`: cancel the current timer, if any. */
  function StopSampling(s: Sampler): (r: Sampler)
    requires SamplerValid(s)
    ensures SamplerValid(r)
    ensures r.current == None && r.scheduled == {}
    ensures s.current == None ==> r == s
  {
    match s.current
    case None => s
    case Some(t) => Sampler(None, s.scheduled - {t}, s.made)
  }

  /** `startAmplitudeSampling`: cancel the current timer, then schedule a new
      one, so exactly one timer runs afterwards and it is a new one. */
  function StartSampling(s: Sampler): (r: Sampler)
    requires SamplerValid(s)
    ensures SamplerValid(r)
    ensures r.current.Some? && r.scheduled == {r.current.value}
    ensures r.current.value !in s.scheduled && r.made > s.made
  {
    var stopped := StopSampling(s);
    Sampler(Some(stopped.made), stopped.scheduled + {stopped.made}, stopped.made + 1)
  }

  /** The fields of `AudioRecorder`.  `hasMediaRecorder` says whether the
      `mediaRecorder` field is non-null; `recordingFile` is the absolute path
      of `mediaRecordingFile`. */
  datatype Recorder = Recorder(
    tracker: Amplitude.Tracker,
    sampler: Sampler,
    hasMediaRecorder: bool,
    recordingFile: Option<string>,
    isRecording: bool,
    identifier: Option<string>)

  /** What `onDidStop` receives when there was an output file. */
  datatype StopInfo = StopInfo(identifier: Option<string>, path: string, mime: string, filename: string)

  /** Callbacks the recorder invokes, and the file it deletes. */
  datatype Event =
    | DidStart(identifier: Option<string>)
    | DidStop(info: Option<StopInfo>)
    | DidErrorOccur(identifier: Option<string>, what: int, extra: int)
    | DidInfo(identifier: Option<string>, what: int, extra: int)
    | FileDeleted(path: string)

  datatype Step = Step(recorder: Recorder, events: seq<Event>)

  /** How far the media recorder gets once it has been created: it starts,
      or it throws before or after the output file has been chosen. */
  datatype StartOutcome = Starts | FailsBeforeOutputFile | FailsAfterOutputFile

  const AacMime: string := "audio/aac"

  /** The invariant every reachable recorder keeps: a well-formed history and
      sampler, and a recording only with a media recorder and an output file. */
  predicate Valid(r: Recorder) {
    && Amplitude.Valid(r.tracker)
    && SamplerValid(r.sampler)
    && (r.isRecording ==> r.hasMediaRecorder && r.recordingFile.Some?)
  }

  function Initial(): (r: Recorder)
    ensures Valid(r) && !r.isRecording && r.sampler.scheduled == {}
  {
    Recorder(Amplitude.Initial(), Sampler(None, {}, 0), false, None, false, None)
  }

  /** `String.lastIndexOf(c)`: the last position holding `c`, or -1. */
  function LastIndexOf(s: string, c: char): (i: int)
    ensures -1 <= i < |s|
    ensures 0 <= i ==> s[i] == c
    ensures forall k :: i < k < |s| ==> s[k] != c
    decreases |s|
  {
    if |s| == 0 then -1
    else if s[|s| - 1] == c then |s| - 1
    else LastIndexOf(s[..|s| - 1], c)
  }

  /** The `filename` reported on stop: what follows the last '/' of the
      output path, or the whole path when it has none. */
  function FileName(path: string): (name: string)
    ensures |name| <= |path| && path[|path| - |name|..] == name
    ensures '/' !in name
    ensures |name| < |path| ==> path[|path| - |name| - 1] == '/'
  {
    path[LastIndexOf(path, '/') + 1..]
  }

  /** `record`.  Without audio focus nothing happens.  A recording in
      progress is abandoned first (its media recorder released and dropped,
      the sampling timer left running).  Without the microphone permission
      the error callback fires; otherwise a new media recorder is created and
      either starts, arming a fresh sampling timer, or throws, which fires the
      error callback.  Both error callbacks carry the identifier of the
      previous recording, since the new one is stored only on success. */
  function Record(r: Recorder, identifier: string, focusGranted: bool, permissionGranted: bool,
                  outputPath: string, outcome: StartOutcome): (s: Step)
    requires Valid(r)
    ensures Valid(s.recorder)
    ensures !focusGranted ==> s == Step(r, [])
    ensures focusGranted && permissionGranted && outcome == Starts ==>
              && s.recorder.isRecording && s.recorder.hasMediaRecorder
              && s.recorder.identifier == Some(identifier)
              && s.recorder.recordingFile == Some(outputPath)
              && s.recorder.sampler.current.Some? && s.recorder.sampler.scheduled == {s.recorder.sampler.current.value}
              && s.events == [DidStart(Some(identifier))]
    ensures focusGranted && !(permissionGranted && outcome == Starts) ==>
              && !s.recorder.isRecording
              && s.recorder.identifier == r.identifier
              && s.recorder.sampler == r.sampler
              && s.events == [DidErrorOccur(r.identifier, 0, 0)]
    ensures focusGranted && !permissionGranted ==>
              s.recorder.hasMediaRecorder == (r.hasMediaRecorder && !r.isRecording)
    ensures focusGranted && permissionGranted ==> s.recorder.hasMediaRecorder
    ensures focusGranted && permissionGranted && outcome == FailsAfterOutputFile ==>
              s.recorder.recordingFile == Some(outputPath)
    ensures focusGranted && (!permissionGranted || outcome == FailsBeforeOutputFile) ==>
              s.recorder.recordingFile == r.recordingFile
    ensures s.recorder.tracker == r.tracker
  {
    if !focusGranted then Step(r, [])
    else
      var r1 := if r.hasMediaRecorder && r.isRecording
                then r.(hasMediaRecorder := false, isRecording := false)
                else r;
      if !permissionGranted then
        Step(r1.(isRecording := false), [DidErrorOccur(r1.identifier, 0, 0)])
      else
        var r2 := r1.(hasMediaRecorder := true);
        match outcome
        case Starts =>
          Step(r2.(recordingFile := Some(outputPath), sampler := StartSampling(r2.sampler),
                   isRecording := true, identifier := Some(identifier)),
               [DidStart(Some(identifier))])
        case FailsBeforeOutputFile =>
          Step(r2.(isRecording := false), [DidErrorOccur(r2.identifier, 0, 0)])
        case FailsAfterOutputFile =>
          Step(r2.(recordingFile := Some(outputPath), isRecording := false), [DidErrorOccur(r2.identifier, 0, 0)])
  }

  /** `stopRecording`: when recording, stop sampling and the media recorder
      and report the identifier, path, MIME type and file name of the output,
      which is then forgotten.  The media recorder is released but the field
      keeps referring to it. */
  function StopRecording(r: Recorder): (s: Step)
    requires Valid(r)
    ensures Valid(s.recorder)
    ensures !r.isRecording ==> s == Step(r, [])
    ensures r.isRecording ==>
              && !s.recorder.isRecording
              && s.recorder.sampler.scheduled == {}
              && s.recorder.recordingFile == None
              && s.recorder.hasMediaRecorder
              && s.recorder.identifier == r.identifier
              && s.events == [DidStop(Some(StopInfo(r.identifier, r.recordingFile.value, AacMime,
                                                    FileName(r.recordingFile.value))))]
    ensures s.recorder.tracker == r.tracker
  {
    if !r.isRecording then Step(r, [])
    else
      var r1 := r.(sampler := StopSampling(r.sampler));
      if !r1.hasMediaRecorder then Step(r1, [])
      else
        match r1.recordingFile
        case None => Step(r1.(isRecording := false), [DidStop(None)])
        case Some(path) =>
          Step(r1.(isRecording := false, recordingFile := None),
               [DidStop(Some(StopInfo(r1.identifier, path, AacMime, FileName(path))))])
  }

  /** `cancelRecording`: when recording, stop sampling and the media recorder
      and delete the output file.  The path itself is kept. */
  function CancelRecording(r: Recorder): (s: Step)
    requires Valid(r)
    ensures Valid(s.recorder)
    ensures !r.isRecording ==> s == Step(r, [])
    ensures r.isRecording ==>
              && !s.recorder.isRecording
              && s.recorder.sampler.scheduled == {}
              && s.recorder.recordingFile == r.recordingFile
              && s.events == [FileDeleted(r.recordingFile.value)]
    ensures s.recorder.tracker == r.tracker && s.recorder.identifier == r.identifier
  {
    if !r.isRecording then Step(r, [])
    else
      var r1 := r.(sampler := StopSampling(r.sampler));
      if !r1.hasMediaRecorder then Step(r1, [])
      else Step(r1.(isRecording := false), [FileDeleted(r1.recordingFile.value)])
  }

  /** `onError` from the media recorder: sampling stops, the output file is
      forgotten, recording ends and the error callback fires. */
  function OnError(r: Recorder, what: int, extra: int): (s: Step)
    requires Valid(r)
    ensures Valid(s.recorder)
    ensures !s.recorder.isRecording && s.recorder.recordingFile == None
    ensures s.recorder.sampler.scheduled == {}
    ensures s.recorder.hasMediaRecorder == r.hasMediaRecorder && s.recorder.tracker == r.tracker
    ensures s.recorder.identifier == r.identifier
    ensures s.events == [DidErrorOccur(r.identifier, what, extra)]
  {
    Step(r.(sampler := StopSampling(r.sampler), recordingFile := None, isRecording := false),
         [DidErrorOccur(r.identifier, what, extra)])
  }

  /** `onInfo` from the media recorder: forwarded, nothing changes. */
  function OnInfo(r: Recorder, what: int, extra: int): (s: Step)
    ensures s.recorder == r
    ensures s.events == [DidInfo(r.identifier, what, extra)]
  {
    Step(r, [DidInfo(r.identifier, what, extra)])
  }

  /** `sampleAmplitude`: the timer's tick reads the media recorder's maximum
      amplitude when there is a media recorder. */
  function SampleAmplitude(lib: Library, r: Recorder, maxAmplitude: int): (s: Recorder)
    requires Valid(r)
    ensures Valid(s)
    ensures !r.hasMediaRecorder ==> s == r
    ensures r.hasMediaRecorder ==> s == r.(tracker := Amplitude.Sample(lib, r.tracker, maxAmplitude))
  {
    if r.hasMediaRecorder then r.(tracker := Amplitude.Sample(lib, r.tracker, maxAmplitude)) else r
  }

  /** A whole recording: started from a valid recorder that is not
      recording, then stopped, it reports the new identifier, path and file
      name, and leaves no sampling timer behind. */
  lemma RecordThenStop(r: Recorder, identifier: string, outputPath: string)
    requires Valid(r) && !r.isRecording
    ensures var started := Record(r, identifier, true, true, outputPath, Starts);
            var stopped := StopRecording(started.recorder);
            && stopped.events == [DidStop(Some(StopInfo(Some(identifier), outputPath, AacMime, FileName(outputPath))))]
            && !stopped.recorder.isRecording
            && stopped.recorder.sampler.scheduled == {}
  {
  }

  /** A recording that is abandoned because the permission is missing keeps
      its sampling timer running although nothing is recorded any more.
      Stop and cancel then return early, since nothing is recording, so the
      timer survives them too; only an error callback or a later successful
      start replaces or cancels it. */
  lemma DeniedRestartKeepsTimer(r: Recorder, identifier: string, outputPath: string, outcome: StartOutcome,
                                what: int, extra: int)
    requires Valid(r) && r.isRecording && r.sampler.current.Some?
    ensures var s := Record(r, identifier, true, false, outputPath, outcome);
            && !s.recorder.isRecording && !s.recorder.hasMediaRecorder
            && s.recorder.sampler.scheduled == r.sampler.scheduled != {}
            && StopRecording(s.recorder) == Step(s.recorder, [])
            && CancelRecording(s.recorder) == Step(s.recorder, [])
            && OnError(s.recorder, what, extra).recorder.sampler.scheduled == {}
  {
  }

  /** Everything that can happen to a recorder: the bridge's calls, the
      media recorder's callbacks and the ticks of a sampling timer, each tick
      naming the timer it comes from. */
  datatype Command =
    | RecordCall(identifier: string, focusGranted: bool, permissionGranted: bool, outputPath: string, outcome: StartOutcome)
    | StopCall
    | CancelCall
    | ErrorCallback(what: int, extra: int)
    | InfoCallback(what: int, extra: int)
    | SamplingTick(timer: nat, maxAmplitude: int)

  /** One command.  A tick runs `sampleAmplitude` only while its timer is
      scheduled: a cancelled timer no longer fires. */
  function Apply(lib: Library, r: Recorder, command: Command): (s: Step)
    requires Valid(r)
    ensures Valid(s.recorder)
    ensures command.SamplingTick? && command.timer !in r.sampler.scheduled ==> s == Step(r, [])
    ensures command.SamplingTick? && command.timer in r.sampler.scheduled ==>
              s == Step(SampleAmplitude(lib, r, command.maxAmplitude), [])
  {
    match command
    case RecordCall(identifier, focus, permission, path, outcome) => Record(r, identifier, focus, permission, path, outcome)
    case StopCall => StopRecording(r)
    case CancelCall => CancelRecording(r)
    case ErrorCallback(what, extra) => OnError(r, what, extra)
    case InfoCallback(what, extra) => OnInfo(r, what, extra)
    case SamplingTick(timer, amplitude) =>
      if timer in r.sampler.scheduled then Step(SampleAmplitude(lib, r, amplitude), []) else Step(r, [])
  }

  /** The recorder after `commands`, in order.  Whatever happens, the
      invariant holds and at most one sampling timer is scheduled. */
  function Run(lib: Library, r: Recorder, commands: seq<Command>): (s: Recorder)
    requires Valid(r)
    ensures Valid(s)
    ensures |s.sampler.scheduled| <= 1
    decreases |commands|
  {
    if |commands| == 0 then r
    else Apply(lib, Run(lib, r, commands[..|commands| - 1]), commands[|commands| - 1]).recorder
  }

  /** Stopping, cancelling or failing always leaves no sampling timer
      behind, whatever came before. */
  lemma NoTimerAfterEnd(lib: Library, commands: seq<Command>, last: Command)
    requires last == StopCall || last == CancelCall || last.ErrorCallback?
    ensures var before := Run(lib, Initial(), commands);
            before.isRecording || last.ErrorCallback? ==>
              Run(lib, Initial(), commands + [last]).sampler.scheduled == {}
  {
    assert (commands + [last])[..|commands|] == commands;
  }

  /** Once a recording has been stopped or cancelled, no tick reaches the
      amplitude history any more, whichever timer it names. */
  lemma NoSamplingAfterStop(lib: Library, r: Recorder, timer: nat, maxAmplitude: int)
    requires Valid(r) && r.isRecording
    ensures var stopped := StopRecording(r).recorder;
            Apply(lib, stopped, SamplingTick(timer, maxAmplitude)).recorder.tracker == r.tracker
    ensures var cancelled := CancelRecording(r).recorder;
            Apply(lib, cancelled, SamplingTick(timer, maxAmplitude)).recorder.tracker == r.tracker
  {
  }

  /** A restart of a running recording that gets past the permission check
      but fails to start leaves the old sampling timer scheduled, and that
      timer now samples the new media recorder. */
  lemma FailedRestartSamplesNewRecorder(lib: Library, r: Recorder, identifier: string, outputPath: string,
                                        outcome: StartOutcome, maxAmplitude: int)
    requires Valid(r) && r.isRecording && r.sampler.current.Some?
    requires outcome != Starts
    ensures var s := Record(r, identifier, true, true, outputPath, outcome).recorder;
            && !s.isRecording && s.hasMediaRecorder
            && r.sampler.current.value in s.sampler.scheduled
            && Apply(lib, s, SamplingTick(r.sampler.current.value, maxAmplitude)).recorder.tracker ==
                 Amplitude.Sample(lib, r.tracker, maxAmplitude)
  {
  }
}

=== FILE: visualizer.dfy ===
/** `AudioVisualizerDrawer`: the geometry of the travelling waveform.  A
    row of vertical bars, spaced in proportion to the canvas height, scrolls
    left by a whole bar step per loop of frames, and each bar's height is a
    rectified sine of its position and time scaled by the amplitude. */
module Visualizer {
  import opened Maths

  /** The drawer's inputs: the canvas size, the frame rate, the frame
      counter and the normalized amplitude. */
  datatype Drawer = Drawer(width: int, height: int, fps: int, frameCount: int, normalizedAmplitude: real)

  /** A line from `(x0, y0)` to `(x1, y1)` handed to `Canvas.drawLine`. */
  datatype Segment = Segment(x0: real, y0: real, x1: real, y1: real)

  const MinAmplitude: real := 0.1
  const StrokeSpaceRatio: real := 2.0 / 6.0
  const BarAspectRatio: real := 2.0 / 34.0
  const BarMaximumHeightRatio: real := 34.0 / 40.0
  const BarMinimumHeightRatio: real := 3.0 / 40.0
  const BarSpeedRatio: real := 40.0 / 375.0
  const WaveSpeedRatio: real := 80.0 / 375.0
  const WaveLengthRatio: real := 120.0 / 375.0

  function BarMaxHeight(d: Drawer): real {
    d.height as real * BarMaximumHeightRatio
  }

  function BarWidth(d: Drawer): real {
    BarMaxHeight(d) * BarAspectRatio
  }

  function SpaceWidth(d: Drawer): real {
    BarWidth(d) / StrokeSpaceRatio
  }

  /** The distance from one bar to the next, `barWidth + spaceWidth`. */
  function BarStep(d: Drawer): real {
    BarWidth(d) + SpaceWidth(d)
  }

  function WaveSpeed(d: Drawer): real {
    d.width as real * WaveSpeedRatio
  }

  function BarSpeed(d: Drawer): real {
    d.width as real * BarSpeedRatio
  }

  function WaveLength(d: Drawer): real {
    d.width as real * WaveLengthRatio
  }

  /** The ratios fix the layout: the gap is three bar widths, so a bar step
      is four bar widths, a fifth of the canvas height. */
  lemma StepIsFifthOfHeight(d: Drawer)
    ensures SpaceWidth(d) == 3.0 * BarWidth(d)
    ensures BarStep(d) == 4.0 * BarWidth(d) == d.height as real / 5.0
  {
  }

  /** The bar step as the `Int` the bar count divides by. */
  function StepPixels(d: Drawer): int {
    Truncate(BarStep(d))
  }

  /** On a canvas of non-negative height the integer step is the height
      divided by five, rounded down. */
  lemma StepPixelsIsHeightOverFive(d: Drawer)
    requires d.height >= 0
    ensures StepPixels(d) == d.height / 5
  {
    StepIsFifthOfHeight(d);
    var q := d.height / 5;
    assert q as real <= d.height as real / 5.0 < q as real + 1.0;
  }

  /** `numberOfBarsFor`: how many whole steps fit in `width`; none when the
      integer step is not positive. */
  function NumberOfBars(d: Drawer, width: int): (n: int)
    ensures StepPixels(d) <= 0 ==> n == 0
    ensures StepPixels(d) > 0 && width >= 0 ==>
              0 <= n && n * StepPixels(d) <= width < (n + 1) * StepPixels(d)
    ensures StepPixels(d) > 0 && width < 0 ==> n <= 0
    ensures n > 0 ==> width > 0
  {
    var step := StepPixels(d);
    if step > 0 then
      var n := Div(width, step);
      assert (n + 1) * step == n * step + step;
      n
    else 0
  }

  /** The horizontal distance the bars travel per frame. */
  function PixelsPerFrame(d: Drawer): real
    requires d.fps != 0
  {
    BarSpeed(d) / d.fps as real
  }

  /** How many frames the bars take to travel one step.  At 0 fps the float
      displacement per frame is infinite and the quotient rounds to 0 loops. */
  function FramesPerLoop(d: Drawer): int
    requires d.width > 0
  {
    if d.fps == 0 then 0 else Truncate(BarStep(d) / PixelsPerFrame(d))
  }

  /** `xFor`: bar `index` sits at its slot, shifted left by the frames elapsed
      in the current loop; it stays at 0 on an empty canvas or when a loop
      takes no frames. */
  function XFor(d: Drawer, index: int): (x: real)
    ensures d.width <= 0 ==> x == 0.0
    ensures d.width > 0 && FramesPerLoop(d) <= 0 ==> x == 0.0
    ensures d.width > 0 && FramesPerLoop(d) > 0 ==>
              d.fps != 0 &&
              x == index as real * BarStep(d) - PixelsPerFrame(d) * Rem(d.frameCount, FramesPerLoop(d)) as real
  {
    if d.width > 0 then
      var loop := FramesPerLoop(d);
      if loop > 0 then index as real * BarStep(d) - PixelsPerFrame(d) * Rem(d.frameCount, loop) as real
      else 0.0
    else 0.0
  }

  /** While the bars scroll, bar `index` stays within one step to the left of
      its resting slot: in `(index·step - step, index·step]`. */
  lemma XWithinOneStep(d: Drawer, index: int)
    requires d.width > 0 && d.fps > 0 && d.frameCount >= 0
    requires FramesPerLoop(d) > 0
    ensures index as real * BarStep(d) - BarStep(d) < XFor(d, index) <= index as real * BarStep(d)
  {
    var ppf := PixelsPerFrame(d);
    var loop := FramesPerLoop(d);
    var k := Rem(d.frameCount, loop);
    assert ppf > 0.0;
    var q := BarStep(d) / ppf;
    assert loop as real <= q;
    assert ppf * q == BarStep(d);
    ScaleMonotone(ppf, loop as real, q);
    assert 0 <= k <= loop - 1;
    var kr, lr := k as real, loop as real;
    StepsWithinLoop(ppf, kr, lr, BarStep(d));
    var shift := ppf * kr;
    assert XFor(d, index) == index as real * BarStep(d) - shift;
  }

  /** Fewer than `n` moves of `x` each stay short of a total that `n` moves
      do not exceed. */
  lemma StepsWithinLoop(x: real, k: real, n: real, total: real)
    requires 0.0 < x && 0.0 <= k <= n - 1.0 && x * n <= total
    ensures 0.0 <= x * k < total
  {
    var below := n - 1.0;
    ScaleMonotone(x, 0.0, k);
    ScaleMonotone(x, k, below);
    assert x * n == x * below + x * 1.0;
  }

  /** The scroll repeats every loop: advancing the frame counter by
      `FramesPerLoop` frames puts every bar back where it was. */
  lemma XIsPeriodic(d: Drawer, index: int)
    requires d.width > 0 && d.frameCount >= 0
    ensures XFor(d.(frameCount := d.frameCount + FramesPerLoop(d)), index) == XFor(d, index)
  {
    var later := d.(frameCount := d.frameCount + FramesPerLoop(d));
    assert FramesPerLoop(later) == FramesPerLoop(d);
    var loop := FramesPerLoop(d);
    if loop > 0 {
      var q, r := d.frameCount / loop, d.frameCount % loop;
      assert d.frameCount + loop == (q + 1) * loop + r;
      DivisionUnique(d.frameCount + loop, loop, q + 1, r);
    }
  }

  /** `max(normalizedAmplitude, minAmplitude)`: never below the floor, and
      the reading itself whenever it is above it. */
  function EffectiveAmplitude(d: Drawer): (a: real)
    ensures MinAmplitude <= a
    ensures d.normalizedAmplitude <= a
    ensures a == d.normalizedAmplitude || a == MinAmplitude
  {
    Max(d.normalizedAmplitude, MinAmplitude)
  }

  /** The tallest a bar can be: the span between the maximum and minimum bar
      heights, scaled by the effective amplitude. */
  function HeightScale(d: Drawer): real {
    (BarMaximumHeightRatio - BarMinimumHeightRatio) * d.height as real * EffectiveAmplitude(d)
  }

  /** `waveFormFor`: the height of the bar at `x`, `HeightScale·|sin(kx + ωt)|`
      with wave number `k = 2π / waveLength`, `ω = k·waveSpeed` and
      `t = frameCount / fps`.  A zero width or frame rate would make the float
      quotients infinite; the only caller has a positive width and 30 fps. */
  function WaveForm(lib: Library, d: Drawer, x: real): (h: real)
    requires d.width != 0 && d.fps != 0
    ensures Lawful(lib) && d.height >= 0 ==> 0.0 <= h <= HeightScale(d)
  {
    var waveNumber := 2.0 * Pi / WaveLength(d);
    var angularFrequency := waveNumber * WaveSpeed(d);
    var time := d.frameCount as real / d.fps as real;
    var s := Abs(lib.sin(waveNumber * x + angularFrequency * time));
    assert Lawful(lib) ==> s <= 1.0;
    assert Lawful(lib) && d.height >= 0 ==> HeightScale(d) * s <= HeightScale(d) by {
      if Lawful(lib) && d.height >= 0 {
        assert 0.0 <= HeightScale(d);
      }
    }
    HeightScale(d) * s
  }

  /** The vertical middle of the canvas, `canvas.height / 2` in `Int`. */
  function CenterY(d: Drawer): real {
    Div(d.height, 2) as real
  }

  /** The segment `draw` emits for bar `index`. */
  function BarSegment(lib: Library, d: Drawer, index: int): Segment
    requires d.width != 0 && d.fps != 0
  {
    var x := XFor(d, index);
    Segment(x, CenterY(d) - WaveForm(lib, d, x) / 2.0, x, CenterY(d) + WaveForm(lib, d, x) / 2.0)
  }

  /** `draw`: one segment per bar, in bar order.  Every segment is vertical,
      centred on the middle of the canvas and as long as the waveform is high
      at its position. */
  method Draw(lib: Library, d: Drawer) returns (segments: seq<Segment>)
    requires d.fps != 0
    ensures |segments| == if NumberOfBars(d, d.width) > 0 then NumberOfBars(d, d.width) else 0
    ensures forall i :: 0 <= i < |segments| ==>
              && segments[i].x0 == segments[i].x1 == XFor(d, i)
              && segments[i].y0 + segments[i].y1 == 2.0 * CenterY(d)
              && segments[i].y1 - segments[i].y0 == WaveForm(lib, d, XFor(d, i))
  {
    var count := NumberOfBars(d, d.width);
    segments := [];
    var index := 0;
    while index < count
      invariant 0 <= index <= (if count > 0 then count else 0)
      invariant count > 0 ==> d.width > 0
      invariant |segments| == index
      invariant forall i :: 0 <= i < index ==> segments[i] == BarSegment(lib, d, i)
    {
      segments := segments + [BarSegment(lib, d, index)];
      index := index + 1;
    }
  }
}
